=== FILE: README.md ===
# Authentication service — a Dafny model

This project models the core of a small Flask service that registers users,
logs them in with a bearer token (a JSON Web Token, RFC 7519), returns their
profile and logs them out by revoking the token. The model covers:

- the password-strength validator `strong_password` and the pydantic schemas
  of the registration body, the login body and the profile response
  (`app/schemas/user.py`);
- the `users` table with its primary key, unique and non-null columns
  (`app/models/user.py`), modelled as a sequence of rows in scan order; the
  non-null columns hold by construction, since every field of a `User` value
  is always present, and `register` sets `is_confirmed` to false;
- the revocation gate the JWT library runs in front of protected routes:
  the in-process `BLACKLIST` set, `check_if_token_in_blocklist` and
  `revoked_token_callback` (`app/__init__.py`);
- the four route handlers `register`, `login`, `profile` and `logout`
  (`app/api/auth.py`), each a pure transition from the state (users table,
  revoked token ids) and the parsed request to a response and a new state;
- sequences of requests, over which the table invariant holds and the
  blocklist only grows.

Modules, one file each: `Wrappers` (Option/Result), `Decimal` (Python's
`str`/`int` on integers), `Models`, `Schemas`, `Crypto` (bcrypt and the JWT
claims, abstract), `Responses`, `Blocklist`, `Auth`, `Sessions`.

Foreign pieces are parameters. bcrypt is a `Hasher` record holding a
`generate(password, salt)` function and a `check(hash, password)` function.
The only fact assumed of it is `Sound`: a password checks against every hash
generated from it. The random salt is an argument of `register`. The JWT
token id (`jti`) is an argument of `login`. The clock reading for
`created_at` is an argument of `register`. Pydantic's `EmailStr` is an
`EmailValidator`: it maps a text to its normalised address, or to nothing
when the text is not an address.

Three behaviours of the code are worth stating plainly:

- The login body only needs `identifier` and `password` to be present
  strings. Empty strings pass the schema.
- A token subject that is not an integer gets 422 "Token inválido" from
  `profile`. The JWT library's own refusals come before that: a missing
  token gets 401, an undecodable token 422, an expired token 401.
- `login` reads the first row, in scan order, whose username or email equals
  the identifier. When one row's username equals another row's email, only
  the first of the two rows can log in with that identifier (see
  `Auth.LoginSucceedsIff`).

## Model

| member | source | states |
|---|---|---|
| Decimal.NatToString | app/api/auth.py:82 | `str(n)` of a non-negative id is a non-empty run of digits with no leading zero, and it is "0" exactly for 0 |
| Decimal.IntToString | app/api/auth.py:82 | `str(n)` starts with a minus sign exactly when `n` is negative, every later character is a digit, and a non-zero number has no leading zero |
| Decimal.ParseInt | app/api/auth.py:95-97 | `int(s)` succeeds only on an optional minus sign followed by digits, and then gives the numeral's value (negated after a minus sign), leading zeros allowed; the empty string, a lone "-" and a non-digit first character are the `ValueError` branch |
| Decimal.NatRoundTrip | app/api/auth.py:82-95 | reading back the digits `str` prints gives the number again |
| Decimal.StrIntRoundTrip | app/api/auth.py:82-95 | `int(str(id)) == id` for every integer id, so the token subject leads back to the id |
| Decimal.IntToStringInjective | app/api/auth.py:82 | two ids print the same subject only if they are equal |
| Models.FreshId | app/models/user.py:12 | the id the store gives a new row is at least 1 and greater than every id in use |
| Models.FindFirst | app/api/auth.py:71-73 | `.first()` returns the leftmost row satisfying the filter, and none exactly when no row does |
| Models.FindById | app/api/auth.py:100 | `query.get(id)` returns a row of the table carrying that id, and nothing exactly when no row does |
| Models.FindByIdentifier | app/api/auth.py:71-73 | the login lookup returns a row whose username or email equals the identifier exactly, and nothing exactly when no row does |
| Models.Taken | app/api/auth.py:32 | the duplicate check is true exactly when some row has the same email or the same username |
| Models.FindByIdInValid | app/models/user.py:12 | under the primary-key constraint, looking up a row's id returns that very row |
| Models.InsertKeepsValid | app/models/user.py:12-18 | appending a row with a fresh id and a free email and username keeps ids, emails and usernames unique |
| Models.FindFirstCongruent | app/api/auth.py:71-73 | the lookup depends only on how each row answers the filter, position by position |
| Schemas.Search | app/schemas/user.py:12-19 | `re.search` of a one-class pattern finds the leftmost character of the class, and finds nothing exactly when the string has none |
| Schemas.StrongPassword | app/schemas/user.py:6-21 | a password is accepted iff it has at least 8 characters and an ASCII lowercase letter, an ASCII uppercase letter and a digit; on acceptance it is returned unchanged; on refusal the reported error belongs to a broken rule and every rule checked before it holds |
| Schemas.ShortPasswordIsTooShort | app/schemas/user.py:9-10 | every password shorter than 8 characters is refused as too short, whatever its characters |
| Schemas.NonAsciiLowercaseIgnored | app/schemas/user.py:12-13 | a long enough password with no character in 'a'..'z' is refused for lacking a lowercase letter, even if it has non-ASCII lowercase letters |
| Schemas.NonAsciiUppercaseIgnored | app/schemas/user.py:15-16 | a long enough password with an ASCII lowercase letter and no character in 'A'..'Z' is refused for lacking an uppercase letter |
| Schemas.PasswordExamples | app/schemas/user.py:9-21 | "weakpass" is refused for the uppercase rule, not the digit rule; "StrongP4ss" and "Secur3Pass" pass; "ñáéíóú1A" lacks a lowercase letter; "Ab1" is too short |
| Schemas.Errors | app/schemas/user.py:25-36 | the schema's error list holds exactly the errors of the failing fields, it is empty exactly when every field passes, and it starts with the first field's error and ends with the last field's error when those fail |
| Schemas.ValidateCreate | app/schemas/user.py:25-36 | a registration body is accepted iff all four fields are present, `full_name` and `username` have at least 3 characters, the email is an address and the password is strong; the accepted values are the body's, with the email normalised |
| Schemas.CreateErrorsAreFieldErrors | app/schemas/user.py:25-36 | a refused registration body reports, for each field of the schema, exactly that field's own error; no field stops the others from being checked |
| Schemas.CreateErrorsReported | app/schemas/user.py:27-36 | a missing field, a `full_name` or `username` shorter than 3, an invalid email and the password's first broken rule are each reported iff they occur |
| Schemas.ValidateLogin | app/schemas/user.py:39-42 | a login body is accepted iff `identifier` and `password` are both present, a missing field is reported iff it is absent, and every reported error is a missing `identifier` or `password` |
| Schemas.ProjectionOmitsOnlyHash | app/schemas/user.py:45-51 | two rows have the same response projection iff they differ at most in the password hash: the projection keeps id, full_name, email, username, created_at and is_confirmed, and never the hash |
| Blocklist.Guard | app/__init__.py:45-58 | a protected route runs iff the token is verified and its `jti` is not in the blocklist; a revoked `jti` always gets 401 "token_revoked" |
| Blocklist.GuardMonotone | app/__init__.py:47-49 | a larger blocklist never lets through a token that a smaller one refused |
| Auth.Register | app/api/auth.py:16-52 | 400 iff the body is missing, empty or invalid; 409 iff some existing row has the same email or username; a refused body's 400 carries exactly the schema's error list; every non-201 answer leaves the state unchanged; 201 appends exactly one row, keeps all old rows, and gives the new row the body's fields, the hash of the password, the creation time, `is_confirmed` false and an id above every existing one; the blocklist never changes |
| Auth.RegisterKeepsValid | app/api/auth.py:32-49 | registration keeps ids, emails and usernames unique |
| Auth.RegisterSameEmailTwice | app/api/auth.py:32-33 | after one successful registration, another with the same email gets 409 whatever its username |
| Auth.Login | app/api/auth.py:55-86 | 400 iff the body is missing, empty or invalid, and a refused body's 400 carries exactly the schema's error list; for a valid body, 200 iff the first row answering to the identifier (as `.first()` picks it) exists and the password checks against its hash; the 200 token's subject is `str` of that first row's id with the drawn `jti`; every 401 is the same response |
| Auth.LoginFailuresIndistinguishable | app/api/auth.py:75-86 | an unknown identifier and a wrong password give the identical 401 response |
| Auth.LoginSucceedsIff | app/api/auth.py:71-83 | when at most one row answers to the identifier, login succeeds iff such a row exists and the password checks against it, and the token names that row |
| Auth.LoginIgnoresConfirmation | app/api/auth.py:76-79 | changing any row's `is_confirmed` changes no login response |
| Auth.Profile | app/api/auth.py:90-108 | a revoked token gets 401 "token_revoked"; a non-integer subject gets 422; 200 iff the token passes the gate and its subject parses to the id of an existing row, and the body is that row's projection; 404 iff the token passes the gate, its subject parses and no row has that id |
| Auth.LoginThenProfile | app/api/auth.py:82-108 | on a valid table, `profile` with a token from `login` returns the projection of the row that logged in |
| Auth.Logout | app/api/auth.py:112-119 | the users never change; the blocklist only grows; 200 iff the token passes the gate, and then exactly its `jti` is added; any other answer leaves the state unchanged |
| Auth.LogoutIdempotent | app/api/auth.py:116-119 | logging out twice leaves the same state as once, and the second call is refused as revoked |
| Auth.RevokedTokenRefused | app/__init__.py:45-58 | a revoked token is refused by `profile` and `logout` with 401 "token_revoked", and the refusal changes nothing |
| Sessions.Step | app/api/auth.py:16-119 | only registration changes the users table, and no request removes a revoked token id |
| Sessions.RunKeepsValid | app/models/user.py:12-18 | ids, emails and usernames stay unique over any sequence of requests |
| Sessions.RunKeepsRevocations | app/api/auth.py:118 | nothing removes an entry from the blocklist, over any sequence of requests |
| Sessions.LogoutIsPermanent | app/__init__.py:45-49 | once logout revokes a token, every later protected request carrying it is refused as revoked, whatever happened in between |
| Sessions.JaneValidates | app/schemas/user.py:25-36 | the body ("Jane Doe", "jane@x.com", "janed", "Secur3Pass") passes every field rule |
| Sessions.JaneRegisters | app/api/auth.py:36-52 | registering that body on an empty service creates row 1, unconfirmed, holding the hash of the password |
| Sessions.JaneLogsIn | app/api/auth.py:71-83 | with a sound hasher that user logs in by username and gets a token whose subject is "1" |
| Sessions.Walkthrough | app/api/auth.py:16-119 | register, login, profile, logout, profile again answer 201, 200, 200 with the unconfirmed profile, 200, and 401 "token_revoked" |

## Left out

- Flask request handling: JSON parsing, blueprint registration and response serialisation. A request body is a map from keys to string values, or nothing.
- JSON bodies that are not objects, and field values that are not strings: the model's body type cannot express them, so the schema's type errors are not modelled.
- The shape of pydantic's error dictionaries (`e.errors()`): each error is a field plus a reason.
- bcrypt and JWT signing, encoding and expiry are foreign libraries. They are parameters, and the JWT library's verdict on a credential is an input. Cryptographic strength cannot be proved here. `check_password_hash` raising on a malformed stored hash is not modelled, because every stored hash comes from `generate`.
- Email syntax (`EmailStr`) is a foreign library. It is an abstract validator.
- Python's `int()` also accepts whitespace, a `+` sign, underscores and non-ASCII digits. Only the plain decimal form is modelled; the round trip needs nothing more.
- The database's choice of id is modelled as one more than the largest id in use. Another choice above every id in use would keep every general property here; only the concrete scenario lemmas `Sessions.JaneRegisters`, `Sessions.JaneLogsIn` and `Sessions.Walkthrough` depend on the first row getting id 1 (token subject `"1"`).
- The database's scan order for `.first()` is modelled as insertion order.
- String comparison in the lookups, the duplicate check and the unique constraints is modelled as exact equality, as under SQLite's and PostgreSQL's default collations. The engine is chosen by `DATABASE_URL` (app/config.py); a case- or accent-insensitive collation would change `Models.Taken`, `Models.FindByIdentifier` and `Models.Valid`.
- Column length limits (`String(100)`, `String(120)`, `String(80)`, `String(255)`) are not modelled. Whether they are enforced depends on the database engine.
- Uniqueness violations at commit time, and concurrent registrations racing between the duplicate check and the insert. Handlers here run one at a time, so the duplicate check always runs first.
- The rate limiter is not modelled. Its default limits (200 a day, 50 an hour per client address, app/__init__.py:22-27, registered at app/__init__.py:42) apply to every route and answer 429 before any handler runs. The model has no client address or clock. The stricter login limit at app/api/auth.py:57 is commented out.
- app/config.py and run.py load configuration and start the process.
- `created_at` is an opaque timestamp passed to registration.
- `app/services/blacklist.py` is not part of this model. `BLACKLIST` is a set of strings, used only by adding and by membership.
- The texts of the JWT library's own refusals ("Missing Authorization Header", "Token has expired", the decode error reason) are the library's defaults as modelled, not code of this service.
- Auth.LoginThenProfile: `UserResponseSchema.from_orm` validates the row again before `profile` answers; `email` is checked as `EmailStr` and `created_at` as a datetime. The model assumes every stored row passes that check unchanged. Rows are only written by `register`, which stores an address the same validator produced. A validator that refused its own output, or normalised it differently a second time, would make `profile` fail with a server error or show a different email. `Schemas.Project` copies the fields without that check.
- Auth.LoginSucceedsIff: assumes at most one row answers to the identifier. When one row's username equals another row's email, `.first()` decides which row is checked, so "some row verifies" no longer implies success. `Auth.Login` itself states the exact success condition in every case: 200 iff the first row that answers to the identifier exists and the password checks against its hash.

=== FILE: auth.dfy ===
/** The four route handlers of app/api/auth.py, each a transition over the
    service's state: the users table and the blocklist. */
module Auth {
  import opened Wrappers
  import opened Decimal
  import opened Models
  import opened Schemas
  import opened Crypto
  import opened Responses
  import opened Blocklist

  datatype State = State(users: Table, revoked: Revoked)

  /** What a handler answers and the state it leaves behind. */
  datatype Outcome = Outcome(response: Response, next: State)

  ghost predicate ValidState(st: State) {
    Models.Valid(st.users)
  }

  const NoDataMessage := "No se recibió ningún dato"
  const TakenMessage := "El email o nombre de usuario ya existe"
  const RegisteredMessage := "Usuario registrado exitosamente. Se requiere confirmación (simulada)."
  const NoJsonMessage := "Faltan datos JSON"
  const BadCredentialsMessage := "Credenciales inválidas"
  const BadTokenMessage := "Token inválido"
  const NoUserMessage := "Usuario no encontrado"
  const LoggedOutMessage := "Sesión cerrada exitosamente"

  /** The single answer to every failed login, whatever the reason. */
  const InvalidCredentials := Response(StatusUnauthorized, Message(BadCredentialsMessage))

  /** `if not json_data`: a request without a JSON object, or with an empty one. */
  predicate Submitted(body: Option<JsonObject>) {
    body.Some? && |body.value| > 0
  }

  /** `register`. The new row takes the next id, the bcrypt hash of the
      password under a freshly drawn `salt`, the creation time `now`, and
      an unconfirmed flag. */
  function Register(st: State, body: Option<JsonObject>, email: EmailValidator,
                    hasher: Hasher, salt: Salt, now: Timestamp): (r: Outcome)
    ensures r.response.status in {StatusCreated, StatusBadRequest, StatusConflict}
    ensures r.response.status != StatusCreated ==> r.next == st
    ensures r.next.revoked == st.revoked
    ensures r.response.status == StatusBadRequest <==>
              !Submitted(body) || ValidateCreate(body.value, email).Err?
    ensures Submitted(body) && ValidateCreate(body.value, email).Err? ==>
              r.response == Response(StatusBadRequest, FieldErrors(ValidateCreate(body.value, email).error))
    ensures r.response.status == StatusConflict <==>
              && Submitted(body) && ValidateCreate(body.value, email).Ok?
              && var d := ValidateCreate(body.value, email).value;
                 exists u | u in st.users :: u.email == d.email || u.username == d.username
    ensures r.response.status == StatusCreated ==>
              && Submitted(body) && ValidateCreate(body.value, email).Ok?
              && |r.next.users| == |st.users| + 1
              && r.next.users[..|st.users|] == st.users
              && var d := ValidateCreate(body.value, email).value;
                 var u := r.next.users[|st.users|];
                 && u.fullName == d.fullName && u.email == d.email && u.username == d.username
                 && u.hashedPassword == hasher.generate(d.password, salt)
                 && u.createdAt == now && !u.isConfirmed
                 && forall v | v in st.users :: v.id < u.id
  {
    if !Submitted(body) then
      Outcome(Response(StatusBadRequest, Message(NoDataMessage)), st)
    else
      match ValidateCreate(body.value, email)
      case Err(errors) => Outcome(Response(StatusBadRequest, FieldErrors(errors)), st)
      case Ok(d) =>
        if Taken(st.users, d.email, d.username) then
          Outcome(Response(StatusConflict, Message(TakenMessage)), st)
        else
          var u := NewUser(FreshId(st.users), d.fullName, d.email, d.username,
                           hasher.generate(d.password, salt), now);
          Outcome(Response(StatusCreated, Message(RegisteredMessage)),
                  st.(users := st.users + [u]))
  }

  /** `login`. The token's subject is `str(user.id)`; `jti` is the fresh
      token id the JWT library draws. The confirmation flag is not looked at. */
  function Login(st: State, body: Option<JsonObject>, hasher: Hasher, jti: string): (r: Response)
    ensures r.status in {StatusOk, StatusBadRequest, StatusUnauthorized}
    ensures r.status == StatusBadRequest <==> !Submitted(body) || ValidateLogin(body.value).Err?
    ensures Submitted(body) && ValidateLogin(body.value).Err? ==>
              r == Response(StatusBadRequest, FieldErrors(ValidateLogin(body.value).error))
    ensures Submitted(body) && ValidateLogin(body.value).Ok? ==>
              var c := ValidateLogin(body.value).value;
              var first := FindByIdentifier(st.users, c.identifier);
              && (r.status == StatusOk <==> first.Some? && hasher.check(first.value.hashedPassword, c.password))
              && (r.status == StatusOk ==> r == Response(StatusOk, AccessToken(Token(IntToString(first.value.id), jti))))
    ensures r.status == StatusOk ==>
              && Submitted(body) && ValidateLogin(body.value).Ok?
              && var c := ValidateLogin(body.value).value;
                 exists u | u in st.users ::
                   && Answers(u, c.identifier)
                   && hasher.check(u.hashedPassword, c.password)
                   && r == Response(StatusOk, AccessToken(Token(IntToString(u.id), jti)))
    ensures r.status == StatusUnauthorized ==> r == InvalidCredentials
  {
    if !Submitted(body) then Response(StatusBadRequest, Message(NoJsonMessage))
    else
      match ValidateLogin(body.value)
      case Err(errors) => Response(StatusBadRequest, FieldErrors(errors))
      case Ok(c) =>
        match FindByIdentifier(st.users, c.identifier)
        case Some(u) =>
          if hasher.check(u.hashedPassword, c.password) then
            Response(StatusOk, AccessToken(Token(IntToString(u.id), jti)))
          else InvalidCredentials
        case None => InvalidCredentials
  }

  /** `profile`, behind the revocation gate. */
  function Profile(st: State, bearer: Bearer): (r: Response)
    ensures r.status in {StatusOk, StatusUnauthorized, StatusNotFound, StatusUnprocessable}
    ensures bearer.Verified? && bearer.token.jti in st.revoked ==> r == RevokedTokenResponse
    ensures r.status == StatusOk ==>
              && bearer.Verified? && bearer.token.jti !in st.revoked
              && exists u | u in st.users ::
                   ParseInt(bearer.token.sub) == Some(u.id) && r.body == UserProfile(Project(u))
    ensures r.status == StatusOk <==>
              && bearer.Verified? && bearer.token.jti !in st.revoked
              && ParseInt(bearer.token.sub).Some?
              && exists u | u in st.users :: u.id == ParseInt(bearer.token.sub).value
    ensures r.status == StatusNotFound <==>
              && bearer.Verified? && bearer.token.jti !in st.revoked
              && ParseInt(bearer.token.sub).Some?
              && forall u | u in st.users :: u.id != ParseInt(bearer.token.sub).value
    ensures bearer.Verified? && bearer.token.jti !in st.revoked && ParseInt(bearer.token.sub).None? ==>
              r == Response(StatusUnprocessable, Message(BadTokenMessage))
  {
    match Guard(st.revoked, bearer)
    case Err(refusal) => refusal
    case Ok(token) =>
      match ParseInt(token.sub)
      case None => Response(StatusUnprocessable, Message(BadTokenMessage))
      case Some(id) =>
        match FindById(st.users, id)
        case None => Response(StatusNotFound, Message(NoUserMessage))
        case Some(u) => Response(StatusOk, UserProfile(Project(u)))
  }

  /** `logout`, behind the revocation gate: revokes the presented token. */
  function Logout(st: State, bearer: Bearer): (r: Outcome)
    ensures r.next.users == st.users
    ensures st.revoked <= r.next.revoked
    ensures r.response.status == StatusOk <==> bearer.Verified? && bearer.token.jti !in st.revoked
    ensures r.response.status == StatusOk ==> r.next.revoked == st.revoked + {bearer.token.jti}
    ensures r.response.status != StatusOk ==> r.next == st
    ensures bearer.Verified? ==> bearer.token.jti in r.next.revoked
  {
    match Guard(st.revoked, bearer)
    case Err(refusal) => Outcome(refusal, st)
    case Ok(token) =>
      Outcome(Response(StatusOk, Message(LoggedOutMessage)),
              st.(revoked := st.revoked + {token.jti}))
  }

  /** Registration keeps the table invariant: ids, emails and usernames
      stay unique. */
  lemma RegisterKeepsValid(st: State, body: Option<JsonObject>, email: EmailValidator,
                           hasher: Hasher, salt: Salt, now: Timestamp)
    requires ValidState(st)
    ensures ValidState(Register(st, body, email, hasher, salt, now).next)
  {
    var r := Register(st, body, email, hasher, salt, now);
    if r.response.status == StatusCreated {
      var d := ValidateCreate(body.value, email).value;
      var u := r.next.users[|st.users|];
      assert r.next.users == st.users + [u];
      assert !Taken(st.users, u.email, u.username);
      InsertKeepsValid(st.users, u);
    }
  }

  /** After one registration succeeds, a second one with the same email
      address is refused with 409, whatever its username. */
  lemma RegisterSameEmailTwice(st: State, first: JsonObject, second: JsonObject, email: EmailValidator,
                               hasher: Hasher, salt: Salt, salt': Salt, now: Timestamp, now': Timestamp)
    requires Register(st, Some(first), email, hasher, salt, now).response.status == StatusCreated
    requires ValidateCreate(second, email).Ok?
    requires ValidateCreate(second, email).value.email == ValidateCreate(first, email).value.email
    ensures var st' := Register(st, Some(first), email, hasher, salt, now).next;
            Register(st', Some(second), email, hasher, salt', now').response.status == StatusConflict
  {
    var st' := Register(st, Some(first), email, hasher, salt, now).next;
    var u := st'.users[|st.users|];
    assert u in st'.users;
    assert |second| > 0 by {
      assert Key(FullName) in second;
    }
  }

  /** An unknown identifier and a known identifier with a wrong password
      get the very same response, whatever the two states and tokens are. */
  lemma LoginFailuresIndistinguishable(
    st: State, body: JsonObject, hasher: Hasher, jti: string,
    st': State, body': JsonObject, hasher': Hasher, jti': string)
    requires ValidateLogin(body).Ok? && ValidateLogin(body').Ok?
    requires forall u | u in st.users :: !Answers(u, body[Key(Identifier)])
    requires FindByIdentifier(st'.users, body'[Key(Identifier)]).Some?
    requires !hasher'.check(FindByIdentifier(st'.users, body'[Key(Identifier)]).value.hashedPassword,
                            body'[Key(Password)])
    ensures Login(st, Some(body), hasher, jti) == Login(st', Some(body'), hasher', jti') == InvalidCredentials
  {
    assert Key(Identifier) in body && Key(Identifier) in body';
  }

  /** Where only one row answers to the identifier, login succeeds exactly
      when some row answers to it and the password checks against that
      row's hash; the token then names that row by `str(id)`. */
  lemma LoginSucceedsIff(st: State, body: JsonObject, hasher: Hasher, jti: string)
    requires ValidateLogin(body).Ok?
    requires var ident := body[Key(Identifier)];
             forall i, j | 0 <= i < j < |st.users| :: !(Answers(st.users[i], ident) && Answers(st.users[j], ident))
    ensures var ident := body[Key(Identifier)];
            Login(st, Some(body), hasher, jti).status == StatusOk <==>
              exists u | u in st.users :: Answers(u, ident) && hasher.check(u.hashedPassword, body[Key(Password)])
    ensures forall u | u in st.users && Answers(u, body[Key(Identifier)]) ::
              Login(st, Some(body), hasher, jti).status == StatusOk ==>
                Login(st, Some(body), hasher, jti).body == AccessToken(Token(IntToString(u.id), jti))
  {
    var ident := body[Key(Identifier)];
    var pw := body[Key(Password)];
    assert Key(Identifier) in body;
    forall u | u in st.users && Answers(u, ident)
      ensures FindByIdentifier(st.users, ident) == Some(u)
    {
      var k := FindFirst(st.users, (v: User) => Answers(v, ident));
      var i :| 0 <= i < |st.users| && st.users[i] == u;
      assert k.Some?;
    }
  }

  /** The confirmation gate is disabled: flipping any row's `is_confirmed`
      flag changes no login response. */
  lemma LoginIgnoresConfirmation(st: State, users': Table, body: Option<JsonObject>, hasher: Hasher, jti: string)
    requires |users'| == |st.users|
    requires forall i | 0 <= i < |st.users| :: users'[i] == st.users[i].(isConfirmed := users'[i].isConfirmed)
    ensures Login(st, body, hasher, jti) == Login(st.(users := users'), body, hasher, jti)
  {
    if Submitted(body) && ValidateLogin(body.value).Ok? {
      var ident := ValidateLogin(body.value).value.identifier;
      FindFirstCongruent(st.users, (v: User) => Answers(v, ident), users', (v: User) => Answers(v, ident));
    }
  }

  /** A token that login issues for a row leads `profile` back to that
      row's public projection, because `int(str(id)) == id` and the id is
      the row's primary key. */
  lemma LoginThenProfile(st: State, body: JsonObject, hasher: Hasher, jti: string)
    requires ValidState(st)
    requires jti !in st.revoked
    requires Login(st, Some(body), hasher, jti).status == StatusOk
    ensures var token := Login(st, Some(body), hasher, jti).body.token;
            var u := FindByIdentifier(st.users, body[Key(Identifier)]).value;
            Profile(st, Verified(token)) == Response(StatusOk, UserProfile(Project(u)))
  {
    var u := FindByIdentifier(st.users, body[Key(Identifier)]).value;
    var i :| 0 <= i < |st.users| && st.users[i] == u;
    StrIntRoundTrip(u.id);
    FindByIdInValid(st.users, i);
  }

  /** Logging out twice leaves the same state as logging out once; the
      second call is refused as revoked. */
  lemma LogoutIdempotent(st: State, bearer: Bearer)
    ensures var once := Logout(st, bearer).next;
            Logout(once, bearer).next == once
    ensures bearer.Verified? ==> Logout(Logout(st, bearer).next, bearer).response == RevokedTokenResponse
  {
  }

  /** A revoked token is refused by every protected route, before the
      route's own code runs, and the refusal changes nothing. */
  lemma RevokedTokenRefused(st: State, token: Token)
    requires token.jti in st.revoked
    ensures Profile(st, Verified(token)) == RevokedTokenResponse
    ensures Logout(st, Verified(token)) == Outcome(RevokedTokenResponse, st)
  {
  }
}

=== FILE: blocklist.dfy ===
/** The revocation gate of app/__init__.py: the in-process blocklist of
    revoked token ids, the check the JWT library runs on every protected
    request, and the response it sends for a revoked token. */
module Blocklist {
  import opened Wrappers
  import opened Crypto
  import opened Responses

  /** `BLACKLIST`: the ids of revoked tokens. Entries are only ever added. */
  type Revoked = set<string>

  /** `check_if_token_in_blocklist`: is the payload's token id revoked? */
  predicate TokenInBlocklist(revoked: Revoked, payload: Token) {
    payload.jti in revoked
  }

  /** `revoked_token_callback`: 401 with error code "token_revoked". */
  const RevokedTokenResponse: Response :=
    Response(StatusUnauthorized, Described("El token ha sido revocado.", "token_revoked"))

  /** The JWT library's own refusals, with its default statuses. */
  const MissingTokenResponse: Response :=
    Response(StatusUnauthorized, Message("Missing Authorization Header"))
  const ExpiredTokenResponse: Response :=
    Response(StatusUnauthorized, Message("Token has expired"))

  /** `@jwt_required()`: the order of checks in front of a protected route.
      The token must be present, decodable and unexpired; then its id is
      looked up in the blocklist; only then does the route run. */
  function Guard(revoked: Revoked, bearer: Bearer): (r: Result<Token, Response>)
    ensures r.Ok? <==> bearer.Verified? && !TokenInBlocklist(revoked, bearer.token)
    ensures r.Ok? ==> r.value == bearer.token
    ensures bearer.Verified? && bearer.token.jti in revoked ==> r == Err(RevokedTokenResponse)
    ensures r.Err? ==> r.error.status in {StatusUnauthorized, StatusUnprocessable}
  {
    match bearer
    case Missing => Err(MissingTokenResponse)
    case Invalid(reason) => Err(Response(StatusUnprocessable, Message(reason)))
    case Expired => Err(ExpiredTokenResponse)
    case Verified(token) =>
      if TokenInBlocklist(revoked, token) then Err(RevokedTokenResponse) else Ok(token)
  }

  /** The gate only reads the blocklist: whatever it answers, a larger
      blocklist never lets through a token a smaller one refused. */
  lemma GuardMonotone(revoked: Revoked, more: Revoked, bearer: Bearer)
    requires revoked <= more
    ensures Guard(revoked, bearer).Err? ==> Guard(more, bearer).Err?
  {
  }
}

=== FILE: crypto.dfy ===
/** The foreign cryptographic libraries the service relies on, reduced to
    what the handlers use of them: bcrypt's hash and check, and the claims
    of a JSON Web Token (RFC 7519). */
module Crypto {

  /** The random salt bcrypt draws for each new hash. */
  type Salt = nat

  /** bcrypt as a pair of functions: `generate(password, salt)` produces
      the stored hash and `check(hash, password)` verifies a candidate. */
  datatype Hasher = Hasher(generate: (string, Salt) -> string, check: (string, string) -> bool)

  /** The one property the service relies on: a password verifies against
      every hash generated from it. */
  ghost predicate Sound(h: Hasher) {
    forall p, s :: h.check(h.generate(p, s), p)
  }

  /** The claims of an access token the handlers read: the subject
      (section 4.1.2 of RFC 7519), which holds the user's id as a string,
      and the token id (section 4.1.7 of RFC 7519), the revocation key. */
  datatype Token = Token(sub: string, jti: string)

  /** What the JWT library makes of a request's bearer credential before
      the service sees it: absent, undecodable or badly signed, expired, or
      a verified token with its claims. */
  datatype Bearer = Missing | Invalid(reason: string) | Expired | Verified(token: Token)
}

=== FILE: decimal.dfy ===
/** Python's `str` and `int` on integers, restricted to the plain decimal
    numerals that a token's subject claim carries: an optional minus sign
    followed by ASCII digits. */
module Decimal {
  import opened Wrappers

  predicate IsDigit(c: char) {
    '0' <= c <= '9'
  }

  predicate AllDigits(s: string) {
    forall i | 0 <= i < |s| :: IsDigit(s[i])
  }

  function DigitValue(c: char): (d: nat)
    requires IsDigit(c)
    ensures d < 10
  {
    c as int - '0' as int
  }

  function DigitChar(d: nat): (c: char)
    requires d < 10
    ensures IsDigit(c) && DigitValue(c) == d
  {
    ('0' as int + d) as char
  }

  /** The value of a numeral, most significant digit first. */
  function DigitsValue(s: string): nat
    requires AllDigits(s)
  {
    if |s| == 0 then 0 else 10 * DigitsValue(s[..|s| - 1]) + DigitValue(s[|s| - 1])
  }

  /** `str(n)` for a non-negative `n`: the shortest numeral, so no leading
      zero except in "0" itself. */
  function NatToString(n: nat): (s: string)
    ensures 0 < |s| && AllDigits(s)
    ensures n == 0 <==> s == "0"
    ensures 0 < n ==> s[0] != '0'
  {
    if n < 10 then [DigitChar(n)] else NatToString(n / 10) + [DigitChar(n % 10)]
  }

  /** `str(n)`: a minus sign exactly for negative `n`, then the numeral of |n|. */
  function IntToString(n: int): (s: string)
    ensures 0 < |s|
    ensures s[0] == '-' <==> n < 0
    ensures forall i | 0 < i < |s| :: IsDigit(s[i])
    ensures n < 0 ==> 1 < |s|
    ensures n != 0 ==> s[if n < 0 then 1 else 0] != '0'
  {
    if n < 0 then "-" + NatToString(-n) else NatToString(n)
  }

  /** `int(s)`: an optional minus sign followed by at least one digit;
      anything else is the `ValueError` branch. */
  function ParseInt(s: string): (r: Option<int>)
    ensures r.Some? ==> 0 < |s| && forall i | 0 < i < |s| :: IsDigit(s[i])
    ensures r.Some? && r.value < 0 ==> s[0] == '-'
    ensures 0 < |s| && !IsDigit(s[0]) && s[0] != '-' ==> r.None?
    ensures s == "" || s == "-" ==> r.None?
    ensures 0 < |s| && AllDigits(s) ==> r == Some(DigitsValue(s))
    ensures 1 < |s| && s[0] == '-' && AllDigits(s[1..]) ==> r == Some(0 - DigitsValue(s[1..]))
  {
    if 0 < |s| && s[0] == '-' then
      if 1 < |s| && AllDigits(s[1..]) then Some(0 - DigitsValue(s[1..])) else None
    else if 0 < |s| && AllDigits(s) then Some(DigitsValue(s))
    else None
  }

  /** Reading back the numeral `str` prints gives the number again. */
  lemma {:induction false} NatRoundTrip(n: nat)
    ensures DigitsValue(NatToString(n)) == n
  {
    if n >= 10 {
      var p := NatToString(n / 10);
      var s := p + [DigitChar(n % 10)];
      assert s[..|s| - 1] == p;
      NatRoundTrip(n / 10);
    }
  }

  /** `int(str(n)) == n` for every integer `n`. */
  lemma StrIntRoundTrip(n: int)
    ensures ParseInt(IntToString(n)) == Some(n)
  {
    var s := IntToString(n);
    if n < 0 {
      assert s[1..] == NatToString(-n);
      NatRoundTrip(-n);
    } else {
      NatRoundTrip(n);
    }
  }

  /** Distinct integers print differently, so a subject names one id. */
  lemma IntToStringInjective(a: int, b: int)
    ensures IntToString(a) == IntToString(b) <==> a == b
  {
    StrIntRoundTrip(a);
    StrIntRoundTrip(b);
  }
}

=== FILE: models.dfy ===
/** The `users` table of app/models/user.py: one row per registered account,
    together with the column constraints that form the store's invariant. */
module Models {
  import opened Wrappers

  /** `created_at`, kept opaque: nothing in the service inspects it. */
  type Timestamp = int

  /** One row. Every column is declared non-null, so every field is always
      present; `is_confirmed` is set to false when the row is created. */
  datatype User = User(
    id: int,
    fullName: string,
    email: string,
    username: string,
    hashedPassword: string,
    createdAt: Timestamp,
    isConfirmed: bool)

  /** The rows in the order a full table scan visits them, which is the
      order they were inserted in. */
  type Table = seq<User>

  /** `id` is the primary key. */
  ghost predicate UniqueIds(t: Table) {
    forall i, j | 0 <= i < j < |t| :: t[i].id != t[j].id
  }

  /** `email` carries a unique constraint. */
  ghost predicate UniqueEmails(t: Table) {
    forall i, j | 0 <= i < j < |t| :: t[i].email != t[j].email
  }

  /** `username` carries a unique constraint. */
  ghost predicate UniqueUsernames(t: Table) {
    forall i, j | 0 <= i < j < |t| :: t[i].username != t[j].username
  }

  /** The table invariant: all three keys are unique. */
  ghost predicate Valid(t: Table) {
    UniqueIds(t) && UniqueEmails(t) && UniqueUsernames(t)
  }

  /** A fresh row, with the column defaults filled in. */
  function NewUser(id: int, fullName: string, email: string, username: string,
                   hashedPassword: string, createdAt: Timestamp): User
  {
    User(id, fullName, email, username, hashedPassword, createdAt, false)
  }

  /** The id the store hands to the next inserted row: one more than the
      largest id in use, and at least 1. */
  function FreshId(t: Table): (id: int)
    ensures 1 <= id
    ensures forall i | 0 <= i < |t| :: t[i].id < id
  {
    if |t| == 0 then 1
    else
      var rest := FreshId(t[1..]);
      assert forall i | 1 <= i < |t| :: t[i] == t[1..][i - 1];
      if rest <= t[0].id then t[0].id + 1 else rest
  }

  /** The position of the first row, in scan order, that satisfies `p`:
      what `query.filter(p).first()` returns. */
  function FindFirst(t: Table, p: User -> bool): (r: Option<nat>)
    ensures r.Some? ==> r.value < |t| && p(t[r.value])
    ensures r.Some? ==> forall j | 0 <= j < r.value :: !p(t[j])
    ensures r.None? <==> forall j | 0 <= j < |t| :: !p(t[j])
  {
    if |t| == 0 then None
    else if p(t[0]) then Some(0)
    else
      match FindFirst(t[1..], p)
      case None => None
      case Some(k) => Some(k + 1)
  }

  /** `User.query.get(id)`: the row whose primary key is `id`, if any. */
  function FindById(t: Table, id: int): (r: Option<User>)
    ensures r.Some? ==> r.value in t && r.value.id == id
    ensures r.None? <==> forall u | u in t :: u.id != id
  {
    match FindFirst(t, (u: User) => u.id == id)
    case None => None
    case Some(k) => Some(t[k])
  }

  /** Does the row answer to the login identifier, as username or email? */
  predicate Answers(u: User, identifier: string) {
    u.username == identifier || u.email == identifier
  }

  /** The first row in scan order whose username or email equals the
      identifier as exact strings; a case-insensitive database collation
      is not modelled. */
  function FindByIdentifier(t: Table, identifier: string): (r: Option<User>)
    ensures r.Some? ==> r.value in t && Answers(r.value, identifier)
    ensures r.None? <==> forall u | u in t :: !Answers(u, identifier)
  {
    match FindFirst(t, (u: User) => Answers(u, identifier))
    case None => None
    case Some(k) => Some(t[k])
  }

  /** Is the email or the username already held by some row? */
  function Taken(t: Table, email: string, username: string): (taken: bool)
    ensures taken <==> exists u | u in t :: u.email == email || u.username == username
  {
    FindFirst(t, (u: User) => u.email == email || u.username == username).Some?
  }

  /** In a valid table the primary key finds exactly the row that carries it. */
  lemma FindByIdInValid(t: Table, i: int)
    requires Valid(t)
    requires 0 <= i < |t|
    ensures FindById(t, t[i].id) == Some(t[i])
  {
    var k := FindFirst(t, (u: User) => u.id == t[i].id);
    assert k.Some?;
  }

  /** Appending a row whose email and username are free and whose id is
      fresh keeps every uniqueness constraint. */
  lemma InsertKeepsValid(t: Table, u: User)
    requires Valid(t)
    requires !Taken(t, u.email, u.username)
    requires u.id == FreshId(t)
    ensures Valid(t + [u])
  {
    var t' := t + [u];
    forall i | 0 <= i < |t|
      ensures t'[i].email != u.email && t'[i].username != u.username && t'[i].id != u.id
    {
      assert t'[i] == t[i] && t[i] in t;
    }
  }

  /** The scan does not look past the predicate: two tables of the same
      length whose rows answer alike, position by position, yield the same
      first position. */
  lemma {:induction false} FindFirstCongruent(t: Table, p: User -> bool, t': Table, p': User -> bool)
    requires |t| == |t'|
    requires forall i | 0 <= i < |t| :: p(t[i]) == p'(t'[i])
    ensures FindFirst(t, p) == FindFirst(t', p')
  {
    if |t| > 0 && !p(t[0]) {
      assert forall i | 0 <= i < |t[1..]| :: p(t[1..][i]) == p'(t'[1..][i]) by {
        forall i | 0 <= i < |t[1..]| ensures p(t[1..][i]) == p'(t'[1..][i]) {
          assert t[1..][i] == t[i + 1] && t'[1..][i] == t'[i + 1];
        }
      }
      FindFirstCongruent(t[1..], p, t'[1..], p');
    }
  }
}

=== FILE: responses.dfy ===
/** HTTP responses as the handlers build them: a status code and a JSON body. */
module Responses {
  import Crypto
  import Schemas

  const StatusOk := 200
  const StatusCreated := 201
  const StatusBadRequest := 400
  const StatusUnauthorized := 401
  const StatusNotFound := 404
  const StatusConflict := 409
  const StatusUnprocessable := 422

  /** The JSON bodies the service sends. */
  datatype Body =
    | Message(msg: string)                              // {"msg": ...}
    | FieldErrors(errors: seq<Schemas.FieldError>)      // the schema's error list
    | AccessToken(token: Crypto.Token)                  // {"access_token": ...}
    | UserProfile(user: Schemas.UserResponse)             // the public projection
    | Described(description: string, error: string)     // {"description": ..., "error": ...}

  datatype Response = Response(status: int, body: Body)
}

=== FILE: schemas.dfy ===
/** The request and response schemas of app/schemas/user.py: the password
    strength validator, the field rules of the registration and login
    bodies, and the public projection of a user row. */
module Schemas {
  import opened Wrappers
  import Models
  import Decimal

  const MinPasswordLength: nat := 8
  const MinNameLength: nat := 3

  /** The three character classes the validator searches for. Only the
      ASCII ranges count, exactly as in the regular expressions. */
  datatype CharClass = Lower | Upper | Digit

  predicate InClass(c: char, k: CharClass) {
    match k
    case Lower => 'a' <= c <= 'z'
    case Upper => 'A' <= c <= 'Z'
    case Digit => Decimal.IsDigit(c)
  }

  ghost predicate Contains(s: string, k: CharClass) {
    exists i | 0 <= i < |s| :: InClass(s[i], k)
  }

  /** `re.search` with a one-class pattern: the position of the leftmost
      character of the class, if there is one. */
  function Search(s: string, k: CharClass): (r: Option<nat>)
    ensures r.Some? ==> r.value < |s| && InClass(s[r.value], k)
    ensures r.Some? ==> forall j | 0 <= j < r.value :: !InClass(s[j], k)
    ensures r.None? <==> !Contains(s, k)
  {
    if |s| == 0 then None
    else if InClass(s[0], k) then Some(0)
    else
      match Search(s[1..], k)
      case None => None
      case Some(j) => Some(j + 1)
  }

  /** The error `strong_password` raises, one per rule. */
  datatype PasswordError = TooShort | MissingLowercase | MissingUppercase | MissingDigit

  /** The rules of `strong_password`, listed in `Rules` in checking order. */
  datatype Rule = LengthRule | LowerRule | UpperRule | DigitRule

  const Rules: seq<Rule> := [LengthRule, LowerRule, UpperRule, DigitRule]

  ghost predicate Satisfies(p: string, rule: Rule) {
    match rule
    case LengthRule => |p| >= MinPasswordLength
    case LowerRule => Contains(p, Lower)
    case UpperRule => Contains(p, Upper)
    case DigitRule => Contains(p, Digit)
  }

  /** A strong password satisfies every rule. */
  ghost predicate IsStrong(p: string) {
    forall k | 0 <= k < |Rules| :: Satisfies(p, Rules[k])
  }

  /** The error reported when `rule` is the one that fails. */
  function Violation(rule: Rule): PasswordError {
    match rule
    case LengthRule => TooShort
    case LowerRule => MissingLowercase
    case UpperRule => MissingUppercase
    case DigitRule => MissingDigit
  }

  /** Where in the checking order the rule reporting `e` stands. */
  function Rank(e: PasswordError): (k: nat)
    ensures k < |Rules| && Violation(Rules[k]) == e
  {
    match e
    case TooShort => 0
    case MissingLowercase => 1
    case MissingUppercase => 2
    case MissingDigit => 3
  }

  /** `strong_password`: the password itself when it is strong, otherwise
      the error of the first rule, in checking order, that it breaks. */
  function StrongPassword(p: string): (r: Result<string, PasswordError>)
    ensures r.Ok? <==> IsStrong(p)
    ensures r.Ok? ==> r.value == p
    ensures r.Err? ==> !Satisfies(p, Rules[Rank(r.error)])
    ensures r.Err? ==> forall k | 0 <= k < Rank(r.error) :: Satisfies(p, Rules[k])
  {
    assert Rules[0] == LengthRule && Rules[1] == LowerRule && Rules[2] == UpperRule && Rules[3] == DigitRule;
    if |p| < MinPasswordLength then Err(TooShort)
    else if Search(p, Lower).None? then Err(MissingLowercase)
    else if Search(p, Upper).None? then Err(MissingUppercase)
    else if Search(p, Digit).None? then Err(MissingDigit)
    else Ok(p)
  }

  /** Length is checked first: a short password is reported as too short
      whatever characters it holds. */
  lemma ShortPasswordIsTooShort(p: string)
    requires |p| < MinPasswordLength
    ensures StrongPassword(p) == Err(TooShort)
  {
  }

  /** Letters outside the ASCII range never satisfy the letter rules: a
      long enough password without any of 'a'..'z' is reported as missing
      a lowercase letter, whatever other lowercase letters it holds. */
  lemma NonAsciiLowercaseIgnored(p: string)
    requires |p| >= MinPasswordLength
    requires forall i | 0 <= i < |p| :: !('a' <= p[i] <= 'z')
    ensures StrongPassword(p) == Err(MissingLowercase)
  {
  }

  /** Likewise for the uppercase rule and 'A'..'Z'. */
  lemma NonAsciiUppercaseIgnored(p: string)
    requires |p| >= MinPasswordLength
    requires Contains(p, Lower)
    requires forall i | 0 <= i < |p| :: !('A' <= p[i] <= 'Z')
    ensures StrongPassword(p) == Err(MissingUppercase)
  {
  }

  /** Concrete cases: "weakpass" breaks both the uppercase and the digit
      rule, and the uppercase rule is reported because it comes first;
      "ñáéíóú1A" has only non-ASCII lowercase letters. */
  lemma PasswordExamples()
    ensures StrongPassword("weakpass") == Err(MissingUppercase)
    ensures StrongPassword("StrongP4ss") == Ok("StrongP4ss")
    ensures StrongPassword("Secur3Pass") == Ok("Secur3Pass")
    ensures StrongPassword("ñáéíóú1A") == Err(MissingLowercase)
    ensures StrongPassword("Ab1") == Err(TooShort)
  {
    assert InClass("StrongP4ss"[1], Lower) && InClass("StrongP4ss"[0], Upper);
    assert InClass("StrongP4ss"[7], Digit);
    assert InClass("Secur3Pass"[1], Lower) && InClass("Secur3Pass"[0], Upper);
    assert InClass("Secur3Pass"[5], Digit);
  }

  /** A JSON object body: key to string value. */
  type JsonObject = map<string, string>

  /** Pydantic's `EmailStr`: the normalised address, or nothing when the
      text is not an address. Its syntax rules live in a foreign library. */
  type EmailValidator = string -> Option<string>

  /** The fields of the two request schemas. */
  datatype Field = FullName | Email | Username | Password | Identifier

  function Key(f: Field): string {
    match f
    case FullName => "full_name"
    case Email => "email"
    case Username => "username"
    case Password => "password"
    case Identifier => "identifier"
  }

  /** Why a field was refused. */
  datatype Issue = Absent | ShorterThan(minLength: nat) | NotAnEmail | Weak(reason: PasswordError)

  datatype FieldError = FieldError(field: Field, issue: Issue)

  /** A required string field with a minimum length (0 for none). */
  function LengthField(body: JsonObject, f: Field, minLength: nat): Result<string, FieldError> {
    if Key(f) !in body then Err(FieldError(f, Absent))
    else if |body[Key(f)]| < minLength then Err(FieldError(f, ShorterThan(minLength)))
    else Ok(body[Key(f)])
  }

  /** The required `email` field. */
  function EmailField(body: JsonObject, email: EmailValidator): Result<string, FieldError> {
    if Key(Email) !in body then Err(FieldError(Email, Absent))
    else match email(body[Key(Email)])
      case None => Err(FieldError(Email, NotAnEmail))
      case Some(address) => Ok(address)
  }

  /** The required `password` field, passed through `strong_password`. */
  function PasswordField(body: JsonObject): Result<string, FieldError> {
    if Key(Password) !in body then Err(FieldError(Password, Absent))
    else match StrongPassword(body[Key(Password)])
      case Err(e) => Err(FieldError(Password, Weak(e)))
      case Ok(p) => Ok(p)
  }

  /** The errors among per-field outcomes, in field order. Validation does
      not stop at the first bad field: every field is checked. */
  function Errors(rs: seq<Result<string, FieldError>>): (es: seq<FieldError>)
    ensures forall e :: e in es <==> Err(e) in rs
    ensures |es| == 0 <==> forall i | 0 <= i < |rs| :: rs[i].Ok?
    ensures 0 < |rs| && rs[0].Err? ==> 0 < |es| && es[0] == rs[0].error
    ensures 0 < |rs| && rs[|rs| - 1].Err? ==> 0 < |es| && es[|es| - 1] == rs[|rs| - 1].error
  {
    if |rs| == 0 then []
    else
      var rest := Errors(rs[1..]);
      assert forall i | 1 <= i < |rs| :: rs[i] == rs[1..][i - 1];
      assert forall r :: r in rs <==> r == rs[0] || r in rs[1..];
      match rs[0]
      case Err(e) => [e] + rest
      case Ok(_) => rest
  }

  /** A validated registration body. */
  datatype UserCreate = UserCreate(fullName: string, email: string, username: string, password: string)

  /** What `UserCreateSchema` demands of a body. */
  ghost predicate CreateAcceptable(body: JsonObject, email: EmailValidator) {
    && Key(FullName) in body && |body[Key(FullName)]| >= MinNameLength
    && Key(Email) in body && email(body[Key(Email)]).Some?
    && Key(Username) in body && |body[Key(Username)]| >= MinNameLength
    && Key(Password) in body && IsStrong(body[Key(Password)])
  }

  /** The fields of `UserCreateSchema`. */
  type CreateField = f: Field | f != Identifier witness FullName

  /** The fields of `UserCreateSchema`, in declaration order. */
  const CreateFields: seq<CreateField> := [FullName, Email, Username, Password]

  /** The rule `UserCreateSchema` applies to one of its fields. */
  function CreateCheck(body: JsonObject, email: EmailValidator, f: CreateField): Result<string, FieldError> {
    if f == FullName then LengthField(body, FullName, MinNameLength)
    else if f == Email then EmailField(body, email)
    else if f == Username then LengthField(body, Username, MinNameLength)
    else PasswordField(body)
  }

  /** The per-field outcomes of `UserCreateSchema`, in declaration order. */
  function CreateChecks(body: JsonObject, email: EmailValidator): seq<Result<string, FieldError>> {
    [CreateCheck(body, email, FullName), CreateCheck(body, email, Email),
     CreateCheck(body, email, Username), CreateCheck(body, email, Password)]
  }

  /** `UserCreateSchema(**body)`: the validated fields, or every field error. */
  function ValidateCreate(body: JsonObject, email: EmailValidator): (r: Result<UserCreate, seq<FieldError>>)
    ensures r.Ok? <==> CreateAcceptable(body, email)
    ensures r.Ok? ==> r.value == UserCreate(body[Key(FullName)], email(body[Key(Email)]).value,
                                            body[Key(Username)], body[Key(Password)])
    ensures r.Err? ==> |r.error| > 0
  {
    var rs := CreateChecks(body, email);
    var es := Errors(rs);
    if |es| == 0 then Ok(UserCreate(rs[0].value, rs[1].value, rs[2].value, rs[3].value))
    else Err(es)
  }

  /** A refused registration body reports, for every field of the schema,
      exactly the error of that field's own rule, if it has one. */
  lemma CreateErrorsAreFieldErrors(body: JsonObject, email: EmailValidator, es: seq<FieldError>)
    requires ValidateCreate(body, email) == Err(es)
    ensures forall e :: e in es <==> e.field != Identifier && e.field in CreateFields && CreateCheck(body, email, e.field) == Err(e)
  {
    var rs := CreateChecks(body, email);
    forall e
      ensures e in es <==> e.field != Identifier && e.field in CreateFields && CreateCheck(body, email, e.field) == Err(e)
    {
      assert Err(e) in rs <==> Err(e) == rs[0] || Err(e) == rs[1] || Err(e) == rs[2] || Err(e) == rs[3];
    }
  }

  /** The concrete field rules of a refused registration body: a missing
      field, a `full_name` or `username` shorter than three characters, an
      invalid email and a weak password are each reported, and nothing else. */
  lemma CreateErrorsReported(body: JsonObject, email: EmailValidator, es: seq<FieldError>)
    requires ValidateCreate(body, email) == Err(es)
    ensures forall f | f in CreateFields :: FieldError(f, Absent) in es <==> Key(f) !in body
    ensures FieldError(FullName, ShorterThan(MinNameLength)) in es <==>
              Key(FullName) in body && |body[Key(FullName)]| < MinNameLength
    ensures FieldError(Username, ShorterThan(MinNameLength)) in es <==>
              Key(Username) in body && |body[Key(Username)]| < MinNameLength
    ensures FieldError(Email, NotAnEmail) in es <==>
              Key(Email) in body && email(body[Key(Email)]).None?
    ensures forall e :: FieldError(Password, Weak(e)) in es <==>
              Key(Password) in body && StrongPassword(body[Key(Password)]) == Err(e)
  {
    CreateErrorsAreFieldErrors(body, email, es);
    assert CreateCheck(body, email, FullName) == LengthField(body, FullName, MinNameLength);
    assert CreateCheck(body, email, Email) == EmailField(body, email);
    assert CreateCheck(body, email, Username) == LengthField(body, Username, MinNameLength);
    assert CreateCheck(body, email, Password) == PasswordField(body);
  }

  /** A validated login body: the identifier is a username or an email. */
  datatype UserLogin = UserLogin(identifier: string, password: string)

  /** `UserLoginSchema(**body)`: both fields are required strings and
      nothing more is asked of them, not even that they be non-empty. */
  function ValidateLogin(body: JsonObject): (r: Result<UserLogin, seq<FieldError>>)
    ensures r.Ok? <==> Key(Identifier) in body && Key(Password) in body
    ensures r.Ok? ==> r.value == UserLogin(body[Key(Identifier)], body[Key(Password)])
    ensures r.Err? ==> forall f | f in {Identifier, Password} ::
                         FieldError(f, Absent) in r.error <==> Key(f) !in body
    ensures r.Err? ==> forall e | e in r.error :: e.issue == Absent && e.field in {Identifier, Password}
  {
    var rs := [LengthField(body, Identifier, 0), LengthField(body, Password, 0)];
    var es := Errors(rs);
    if |es| == 0 then Ok(UserLogin(rs[0].value, rs[1].value)) else Err(es)
  }

  /** `UserResponseSchema`: the public fields of a user. */
  datatype UserResponse = UserResponse(
    id: int,
    fullName: string,
    email: string,
    username: string,
    createdAt: Models.Timestamp,
    isConfirmed: bool)

  function Project(u: Models.User): UserResponse {
    UserResponse(u.id, u.fullName, u.email, u.username, u.createdAt, u.isConfirmed)
  }

  /** The projection keeps exactly the six public fields: two rows have the
      same projection iff they differ at most in the password hash. */
  lemma ProjectionOmitsOnlyHash(u: Models.User, v: Models.User)
    ensures Project(u) == Project(v) <==> u.(hashedPassword := v.hashedPassword) == v
  {
  }
}

=== FILE: sessions.dfy ===
/** Sequences of requests against the service: the state the handlers
    share between calls, and what holds of it over any run. */
module Sessions {
  import opened Wrappers
  import opened Decimal
  import opened Models
  import opened Schemas
  import opened Crypto
  import opened Responses
  import opened Blocklist
  import opened Auth

  /** The process-wide collaborators: the email syntax check and bcrypt. */
  datatype Env = Env(email: EmailValidator, hasher: Hasher)

  /** One request, with the values drawn for it outside the service: the
      bcrypt salt and clock reading of a registration, and the token id of
      a login. */
  datatype Request =
    | RegisterRequest(body: Option<JsonObject>, salt: Salt, now: Timestamp)
    | LoginRequest(body: Option<JsonObject>, jti: string)
    | ProfileRequest(bearer: Bearer)
    | LogoutRequest(bearer: Bearer)

  /** Dispatch one request to its handler. Login and profile only read. */
  function Step(env: Env, st: State, req: Request): (r: Outcome)
    ensures r.next.users == st.users || req.RegisterRequest?
    ensures st.revoked <= r.next.revoked
  {
    match req
    case RegisterRequest(body, salt, now) => Register(st, body, env.email, env.hasher, salt, now)
    case LoginRequest(body, jti) => Outcome(Login(st, body, env.hasher, jti), st)
    case ProfileRequest(bearer) => Outcome(Profile(st, bearer), st)
    case LogoutRequest(bearer) => Logout(st, bearer)
  }

  /** The state after serving the requests in order. */
  function Run(env: Env, st: State, reqs: seq<Request>): State
    decreases |reqs|
  {
    if |reqs| == 0 then st else Run(env, Step(env, st, reqs[0]).next, reqs[1..])
  }

  /** The table invariant holds after any run that starts from it. */
  lemma {:induction false} RunKeepsValid(env: Env, st: State, reqs: seq<Request>)
    requires ValidState(st)
    ensures ValidState(Run(env, st, reqs))
    decreases |reqs|
  {
    if |reqs| > 0 {
      if reqs[0].RegisterRequest? {
        RegisterKeepsValid(st, reqs[0].body, env.email, env.hasher, reqs[0].salt, reqs[0].now);
      }
      RunKeepsValid(env, Step(env, st, reqs[0]).next, reqs[1..]);
    }
  }

  /** The blocklist only grows: nothing removes an entry. */
  lemma {:induction false} RunKeepsRevocations(env: Env, st: State, reqs: seq<Request>)
    ensures st.revoked <= Run(env, st, reqs).revoked
    decreases |reqs|
  {
    if |reqs| > 0 {
      RunKeepsRevocations(env, Step(env, st, reqs[0]).next, reqs[1..]);
    }
  }

  /** Once a token has been logged out, every later protected request that
      presents it is refused as revoked, whatever happened in between. */
  lemma LogoutIsPermanent(env: Env, st: State, token: Token, reqs: seq<Request>)
    requires Logout(st, Verified(token)).response.status == StatusOk
    ensures var later := Run(env, Logout(st, Verified(token)).next, reqs);
            && Profile(later, Verified(token)) == RevokedTokenResponse
            && Logout(later, Verified(token)) == Outcome(RevokedTokenResponse, later)
  {
    var after := Logout(st, Verified(token)).next;
    RunKeepsRevocations(env, after, reqs);
    RevokedTokenRefused(Run(env, after, reqs), token);
  }

  /** The account used in the walk-through below. */
  const Jane: JsonObject :=
    map["full_name" := "Jane Doe", "email" := "jane@x.com", "username" := "janed", "password" := "Secur3Pass"]
  const JaneLogin: JsonObject := map["identifier" := "janed", "password" := "Secur3Pass"]

  /** The row Jane's registration creates on an empty service. */
  function JaneRow(env: Env, salt: Salt, now: Timestamp): User {
    User(1, "Jane Doe", "jane@x.com", "janed", env.hasher.generate("Secur3Pass", salt), now, false)
  }

  /** Jane's registration body passes every field rule. */
  lemma JaneValidates(email: EmailValidator)
    requires email("jane@x.com") == Some("jane@x.com")
    ensures ValidateCreate(Jane, email) == Ok(UserCreate("Jane Doe", "jane@x.com", "janed", "Secur3Pass"))
  {
    assert Key(FullName) == "full_name";
    assert Key(Email) == "email";
    assert Key(Username) == "username";
    assert Key(Password) == "password";
    assert Jane[Key(Password)] == "Secur3Pass";
    assert Jane[Key(Email)] == "jane@x.com";
    assert Jane[Key(FullName)] == "Jane Doe";
    assert Jane[Key(Username)] == "janed";
    PasswordExamples();
    assert CreateAcceptable(Jane, email);
  }

  /** Jane's registration on an empty service creates row 1, unconfirmed,
      holding the hash of her password. */
  lemma JaneRegisters(env: Env, salt: Salt, now: Timestamp)
    requires env.email("jane@x.com") == Some("jane@x.com")
    ensures Register(State([], {}), Some(Jane), env.email, env.hasher, salt, now) ==
              Outcome(Response(StatusCreated, Message(RegisteredMessage)), State([JaneRow(env, salt, now)], {}))
  {
    JaneValidates(env.email);
    assert |Jane| > 0 by {
      assert "full_name" in Jane;
    }
  }

  /** With a sound hasher Jane logs in by username and gets a token whose
      subject is "1". */
  lemma JaneLogsIn(env: Env, salt: Salt, now: Timestamp, jti: string)
    requires Sound(env.hasher)
    ensures Login(State([JaneRow(env, salt, now)], {}), Some(JaneLogin), env.hasher, jti) ==
              Response(StatusOk, AccessToken(Token("1", jti)))
  {
    var u := JaneRow(env, salt, now);
    assert env.hasher.check(u.hashedPassword, "Secur3Pass");
    assert Key(Identifier) == "identifier" && Key(Password) == "password";
    assert ValidateLogin(JaneLogin) == Ok(UserLogin("janed", "Secur3Pass"));
    assert FindByIdentifier([u], "janed") == Some(u);
    assert IntToString(1) == "1";
  }

  /** Register, log in, read the profile, log out, read it again: 201, 200
      with a token naming user 1, 200 with the unconfirmed profile, 200, and
      finally 401 "token_revoked". */
  lemma Walkthrough(env: Env, salt: Salt, now: Timestamp, jti: string)
    requires env.email("jane@x.com") == Some("jane@x.com")
    requires Sound(env.hasher)
    ensures var reg := Register(State([], {}), Some(Jane), env.email, env.hasher, salt, now);
            var token := Token("1", jti);
            var out := Logout(reg.next, Verified(token));
            && reg.response.status == StatusCreated
            && Login(reg.next, Some(JaneLogin), env.hasher, jti) == Response(StatusOk, AccessToken(token))
            && Profile(reg.next, Verified(token)) ==
                 Response(StatusOk, UserProfile(UserResponse(1, "Jane Doe", "jane@x.com", "janed", now, false)))
            && out.response.status == StatusOk
            && Profile(out.next, Verified(token)) == RevokedTokenResponse
  {
    JaneRegisters(env, salt, now);
    JaneLogsIn(env, salt, now, jti);
    var u := JaneRow(env, salt, now);
    assert IntToString(1) == "1";
    StrIntRoundTrip(1);
    assert FindById([u], 1) == Some(u);
  }
}

=== FILE: wrappers.dfy ===
/** Failure-carrying values used across the model in place of Python's
    `None` returns and raised exceptions. */
module Wrappers {

  /** A value that may be absent, like a query that finds no row. */
  datatype Option<+T> = None | Some(value: T)

  /** A computed value or the error that stopped the computation. */
  datatype Result<+T, +E> = Ok(value: T) | Err(error: E)
}
